=== FILE: README.md ===
# Blogicum post visibility and ownership, in Dafny

A model of the rule-bearing layer of the Blogicum blog (a small Django
application): which posts a viewer may list or open, who may edit or delete
a post or a comment, what each page shows, and what the store does when rows
are created, edited or deleted.

The model is functional. The datastore is a `Store` value holding one
sequence per table (`users`, `categories`, `locations`, `posts`,
`comments`). Foreign keys are ids, and nullable foreign keys are `Option`s.
The clock is an integer `now` passed to every time-dependent function. Each
request is a pure function of the store, the requesting user and the
clock. A mutating request returns the new store together with its response.

Modules, following the source files:

- `Common`: `Option`, the two failures (`NotFound` is the 404; `ServerError`
  is the 500 raised when a null reference is dereferenced) and `Fetch`.
- `Seqs`: filter, first-match lookup, insertion sort by an integer key, and
  the next auto-increment key. These stand in for the ORM's `filter`, `get`,
  `order_by` and primary keys.
- `Models` (`models.py`): the record shapes, the `WellFormed` store
  invariant, creating categories and locations, and the effects of deletes.
  Deleting a category or location sets the reference to null. Deleting a
  post or a user cascades. This module also gives a post's comments, oldest
  first.
- `Forms` (`forms.py`): the fields each form may write, and its validation.
- `Utils` (`utils.py`): the post listings and the single-post gate.
- `Mixins` (`mixins.py`): the ownership guards in front of edit and delete.
- `Views` (`views.py`): the listing pages, the detail page, and the create,
  edit and delete endpoints.

Points where the code's behaviour is easy to miss:

- The public listing compares strictly: `pub_date < now`
  (`blogicum/blog/utils.py:25`). The single-post gate hides a post only when
  `pub_date > now` (`blogicum/blog/utils.py:46`). So a post dated exactly
  `now` can be opened but is not listed (`Utils.DueNowOpensButIsNotListed`).
- The gate reads `post.category.is_published` without a null check whenever
  the post is published (the `or` at `blogicum/blog/utils.py:45` skips it only
  for unpublished posts). A published post whose
  category was deleted (set to null) therefore yields `ServerError` for every
  viewer, its author included (`Utils.AuthorSeesOwnPost`).
- The comment-count annotation (`Count('comments')`, utils.py:17) and the
  detail page's comment list (`self.get_object().comments`, views.py:59) name a relation
  `comments`, but the declared related name is `post_comments`. As written,
  the annotation fails to resolve when the queryset is built, so every
  listing raises, and the detail page raises when it reads `.comments`.
  The model follows the evident intent: it counts and lists the comments
  whose `post` is the post.
- Some listings rely on the store invariant. `Utils.AvailPosts` holds every
  public post only in a well-formed store (`Utils.AvailPostsUnion`). The
  author listing is "the posts of the user with that username" only when
  usernames are unique (`Utils.AuthorPostsByUsername`).

## Model

| member | source | states |
|---|---|---|
| Utils.AllPosts | blogicum/blog/utils.py:9-17 | Lists every post of the store exactly once in membership, ordered by `pub_date` descending. Each entry is annotated with the number of comments whose post is that post. |
| Utils.PubPosts | blogicum/blog/utils.py:20-26 | A post is listed iff it is published, its category exists and is published, and `pub_date < now` (strict). Ordered newest first, with the comment-count annotation. |
| Utils.ListingsDistinct | blogicum/blog/utils.py:9-26 | In a well-formed store, the full listing and the public listing each hold every post at most once. |
| Utils.AuthorPosts | blogicum/blog/utils.py:29-32 | Not found iff no user has the username. Otherwise it holds exactly the posts written by that user, whatever their published, category or date state, newest first. |
| Utils.AuthorPostsByUsername | blogicum/blog/utils.py:29-32 | In a well-formed store, the author listing holds exactly the posts whose author's username is the one asked for. |
| Utils.AvailPosts | blogicum/blog/utils.py:35-37 | Fails (not found) iff the author listing fails. Every author post is in the union, and every element of the union is an author post or a public post. |
| Utils.AvailPostsUnion | blogicum/blog/utils.py:35-37 | In a well-formed store, the union also holds every public post, and no post id appears twice. |
| Utils.AvailPostById | blogicum/blog/utils.py:40-50 | Not found when the post id or the viewer's username does not exist. `ServerError` exactly when a published post has a null or dangling category, or its author row is missing. A returned post is the stored post with that id. |
| Utils.AuthorSeesOwnPost | blogicum/blog/utils.py:45-50 | The author gets the post whatever its published, category or date state. The one exception is a published post with a null category, which is a server error. |
| Utils.NonAuthorSeesOnlyOpenPosts | blogicum/blog/utils.py:45-49 | A viewer who is not the author gets not found iff the post is unpublished, or its category is unpublished, or `pub_date > now`. Otherwise the viewer gets the post. |
| Utils.ListedPostsOpen | blogicum/blog/utils.py:20-50 | Every post in the public listing opens for every existing viewer. |
| Utils.OpenPostsListedOrDueNow | blogicum/blog/utils.py:25-46 | A post a non-author can open is in the public listing, unless its `pub_date` equals `now`. |
| Utils.DueNowOpensButIsNotListed | blogicum/blog/utils.py:25-46 | A published post in a published category dated exactly `now` is absent from the listing yet opens for every existing viewer. |
| Utils.DeletedCategoryCrashesGate | blogicum/blog/utils.py:40-50 | After a category is deleted, every published post that was in it makes the single-post gate answer with a server error, for every viewer: the delete nulls the category and the gate then reads it without a null check. |
| Mixins.PostGuard | blogicum/blog/mixins.py:20-46 | The post is loaded through the single-post gate as the requester, and a gate failure aborts with that failure. The guard redirects to the URL's post id iff the post is visible and not the requester's. It proceeds only for the post's author. |
| Mixins.AuthorPassesPostGuard | blogicum/blog/mixins.py:40-46 | The author always proceeds, except for the null-category server error. |
| Mixins.NonAuthorStoppedByPostGuard | blogicum/blog/mixins.py:40-45 | A non-author is redirected to the post's detail page when the post is open to them. When it is hidden they get not found, before any ownership check. |
| Mixins.CommentGuard | blogicum/blog/mixins.py:67-78 | A missing comment is not found. A non-author is redirected to the detail page of the URL's post id. The comment's author proceeds. There is no visibility check and no check that the comment belongs to the URL's post. |
| Views.HomeListing | blogicum/blog/views.py:16-28 | The home page lists exactly the public posts, newest first. |
| Views.ProfileListing | blogicum/blog/views.py:63-76 | The profile page is not found iff the username is unknown. Otherwise it lists exactly that user's posts, each with its comment count, whatever their state, newest first. |
| Views.ProfileShowsAllOwnPosts | blogicum/blog/views.py:69-70 | A post is always on its author's profile page, including hidden and future posts. |
| Views.CategoryListing | blogicum/blog/views.py:99-108 | The page is not found iff no published category has the slug, even when posts that would be public refer to it. Otherwise it shows the public posts whose category has that slug, newest first. |
| Views.CategoryListingExact | blogicum/blog/views.py:99-108 | In a well-formed store, the category page lists exactly the published posts of that category dated before `now`. |
| Views.PostDetail | blogicum/blog/views.py:51-60 | Fails exactly when the single-post gate fails, with the gate's own failure: not found for a hidden or missing post, server error only for the null-category read. Otherwise it shows the stored post and exactly the comments on it, oldest first. |
| Views.ListedCountMatchesDetail | blogicum/blog/utils.py:17 | The comment count a listing shows for a post equals the number of comments on its detail page. |
| Views.PostCreate | blogicum/blog/views.py:31-36 | An invalid form is shown again and a requester without a user row is not found; in both cases the store is unchanged. On success one post is appended with a fresh id, the requester as author, `is_published` true by default, `created_at` now and the form's fields. The response redirects to the requester's profile. |
| Views.PostUpdate | blogicum/blog/mixins.py:33-46 | Unless the guard proceeds the store is unchanged: a hidden post is not found, and another user's post redirects to its detail page. For the author a valid form is saved: the post with that id takes exactly the form's fields, no other post changes, and the response redirects to the requester's profile. No edit changes any post's id, author, `is_published` or `created_at`. |
| Views.PostDelete | blogicum/blog/views.py:45-48 | Unless the guard proceeds the store is unchanged. For the author, the post and exactly its comments are removed, users, categories and locations stay, and the response redirects to the author's profile. |
| Views.CommentCreate | blogicum/blog/views.py:116-123 | An invalid form is shown again and a missing post is not found; in both cases the store is unchanged. No visibility check is made. On success one comment is appended with a fresh id, the requester as author, the URL's post and `created_at` now. The response redirects to that post's detail page. |
| Views.CommentUpdate | blogicum/blog/mixins.py:63-78 | Unless the guard proceeds the store is unchanged and a non-author is redirected to the URL's post. For the author a valid form sets the comment's text to the submitted text and changes nothing else: its post, author and `created_at` stay. The response redirects to the detail page of the comment's own post. |
| Views.CommentDelete | blogicum/blog/views.py:132-135 | Unless the guard proceeds the store is unchanged. For the author exactly that comment is removed, and the response redirects to the detail page of the comment's own post. |
| Views.ProfileUpdate | blogicum/blog/views.py:79-90 | Only the requester's own user row changes, in first name, last name and email. Its username and every other user stay. The response redirects to the requester's profile. |
| Views.NonAuthorsChangeNothing | blogicum/blog/mixins.py:40-78 | Editing or deleting a post or comment one did not write leaves the store unchanged, whatever the form holds. |
| Views.PostCreatePreservesWellFormed | blogicum/blog/views.py:34-36 | Creating a post keeps ids unique and every reference valid. |
| Views.PostUpdatePreservesWellFormed | blogicum/blog/forms.py:6-11 | Editing a post keeps the store well-formed. |
| Views.SavePostFormPreservesWellFormed | blogicum/blog/forms.py:6-11 | Saving a valid post form keeps ids unique, titles within 256 characters and every reference valid. |
| Views.PostDeletePreservesWellFormed | blogicum/blog/models.py:99-104 | Deleting a post through its endpoint leaves no comment pointing at it. |
| Views.CommentCreatePreservesWellFormed | blogicum/blog/views.py:119-123 | Creating a comment, as a user of the store, keeps the store well-formed. |
| Views.CommentUpdatePreservesWellFormed | blogicum/blog/forms.py:14-18 | Editing a comment keeps the store well-formed. |
| Views.CommentDeletePreservesWellFormed | blogicum/blog/views.py:132-135 | Deleting a comment keeps the store well-formed. |
| Views.ProfileUpdatePreservesWellFormed | blogicum/blog/forms.py:21-25 | Editing the requester's profile keeps usernames unique. |
| Models.AddCategory | blogicum/blog/models.py:7-44 | A new category is rejected iff its title is empty or exceeds 256 characters, its description is empty, the slug exceeds the slug field's default 50 characters, the slug is not a slug, or the slug is already taken. An accepted one is appended with a fresh id, `is_published` true and `created_at` now. |
| Models.AddCategoryPreservesWellFormed | blogicum/blog/models.py:32-37 | Adding a category keeps ids and slugs unique. |
| Models.AddLocation | blogicum/blog/models.py:47-57 | A new location is rejected iff its name is empty or exceeds 256 characters. An accepted one is appended with a fresh id, `is_published` true and `created_at` now. |
| Models.AddLocationPreservesWellFormed | blogicum/blog/models.py:47-50 | Adding a location keeps the store well-formed. |
| Models.DeleteCategory | blogicum/blog/models.py:80-85 | Only that category is removed. Every post survives, and only the category of the posts that referred to it changes, to null. |
| Models.DeleteCategoryPreservesWellFormed | blogicum/blog/models.py:80-85 | After the delete, no post refers to a missing category. |
| Models.DeleteLocation | blogicum/blog/models.py:73-79 | Only that location is removed. Every post survives, and only the location of the posts that referred to it changes, to null. |
| Models.DeleteLocationPreservesWellFormed | blogicum/blog/models.py:73-79 | After the delete, no post refers to a missing location. |
| Models.DeletePost | blogicum/blog/models.py:99-104 | The post and exactly the comments on it are removed. |
| Models.DeletePostPreservesWellFormed | blogicum/blog/models.py:99-104 | After the cascade, no comment refers to a missing post. |
| Models.DeleteUser | blogicum/blog/models.py:67-113 | Removes the user, exactly the posts they wrote, and the comments they wrote or that were on those posts. |
| Models.DeleteUserPreservesWellFormed | blogicum/blog/models.py:67-113 | After the cascade, no post or comment refers to a missing user or post. |
| Models.CommentsOf | blogicum/blog/models.py:115-116 | A post's comments are exactly the comments on it, ordered by `created_at` ascending. Their number is the post's comment count. |
| Models.AppendPostPreservesWellFormed | blogicum/blog/views.py:34-36 | Saving a new post with a fresh id, a title that fits its column and existing author, category and location keeps the store well-formed. |
| Models.AppendCommentPreservesWellFormed | blogicum/blog/views.py:119-123 | Saving a new comment with a fresh id on an existing post by an existing user keeps the store well-formed. |
| Forms.ApplyPostForm | blogicum/blog/forms.py:6-11 | Saving the post form writes exactly its fields. Id, author, `is_published` and `created_at` stay. |
| Forms.ApplyCommentForm | blogicum/blog/forms.py:14-18 | Saving the comment form changes the text and nothing else. |
| Forms.ApplyProfileForm | blogicum/blog/forms.py:21-25 | Saving the profile form writes first name, last name and email. Id and username stay. |

## Left out

- The admin panel configuration (`admin.py`) has no behaviour and is not modelled.
- ORM mechanics are modelled only by their results. `select_related`, the SQL
  `Count` annotation, queryset laziness and the SQL `UNION` become filter,
  sort, count and union on sequences.
- Ties in `pub_date` have no order in the source. The model sorts stably, and
  its contracts promise only newest-first order and the exact contents.
- The SQL `UNION` has no order of its own. `Utils.AvailPosts` puts the
  author's posts first, and its contracts speak only of contents and
  distinctness.
- Authentication, sessions and `LoginRequiredMixin` are not modelled. The
  requester is a `User` value. The comment-creation and profile preservation
  lemmas assume that the session user is a row of the store.
- URL reversing, templates and rendering are not modelled, and neither is
  pagination (`CNT_POSTS_FOR_PAGINATE` comes from a constants module that is
  not part of this model). Redirects are the `Page` values `DetailPage(id)`
  and `ProfilePage(username)`.
- Showing an edit form on GET, including the post form built in
  `get_context_data`, is rendering and is not modelled. Only the submission is.
- Image upload storage is not modelled. `image` is a string, and empty means
  no image.
- Wall-clock and timezone handling are not modelled. `now` is an integer
  parameter.
- Form validation is modelled as required fields, title length and existing
  category and location choices. Whitespace stripping and the date widget are
  not modelled. The profile form's field validation belongs to the
  authentication collaborator's user model, which is not part of this model.
- Views.ProfileUpdate: accepts every profile form, because the profile
  fields' validators live in the user model, which is not part of this model.
- The post author and the comment post and author columns are nullable in the
  schema. Every write path in the application sets them, so the model treats
  them as always present.
- Category and location rows are created only through the admin panel.
  `Models.AddCategory` and `Models.AddLocation` model saving such a row
  (defaults, column lengths, slug format and uniqueness) without the panel.
- The Django version is not pinned. `Views.PostDelete` and
  `Views.CommentDelete` model the DeleteView of Django before 4.0, where a
  POST deletes without validating a form. From Django 4.0 a DeleteView
  validates its `form_class` on POST, and with the post and comment forms
  set by the mixins (`blogicum/blog/mixins.py:30` and `blogicum/blog/mixins.py:61`) a bare delete
  would be refused as an invalid form.
- Concurrent writes and transactions are handled by the datastore and are
  outside this layer.
- Datastore failures other than the modelled 404 and 500 are not modelled.

=== FILE: common.dfy ===
/** Shared result types: an optional value, and the two failure outcomes a
    request in the blog can end with. */
module Common {

  /** A nullable value, used for nullable foreign keys and for lookups. */
  datatype Option<+T> = None | Some(value: T)

  /** How a request fails. `NotFound` is the 404 the shortcut
      `get_object_or_404` and an explicit `Http404` produce; `ServerError` is
      the 500 an unguarded dereference of a null foreign key produces. */
  datatype Failure = NotFound | ServerError

  /** The result of a lookup or a page that may fail. */
  datatype Fetch<+T> = Found(value: T) | Fail(failure: Failure)
}

=== FILE: forms.dfy ===
/** The three edit forms and the fields each may touch. A form is modelled
    by the record of its fields, the validation it performs, the initial
    data it takes from an instance, and the way saving it writes those
    fields back into the instance. */
module Forms {
  import opened Common
  import opened Models

  /** The post form: every editable column of a post except `author` and
      `is_published`, which the form excludes. */
  datatype PostFields = PostFields(
    title: string, text: string, pubDate: int,
    location: Option<nat>, category: Option<nat>, image: string)

  /** Validation of the post form: title and text are required and the title
      fits its column; the category is required (its column is nullable but
      not blank) and must be an existing category; the location is optional
      but, when given, must be an existing location. */
  predicate PostFormValid(s: Store, f: PostFields) {
    && 0 < |f.title| <= MaxTitleLength
    && |f.text| > 0
    && f.category.Some? && f.category.value in CategoryIds(s)
    && (f.location.Some? ==> f.location.value in LocationIds(s))
  }

  /** The initial data of the post form bound to an existing post. */
  function PostFormOf(p: Post): PostFields {
    PostFields(p.title, p.text, p.pubDate, p.location, p.category, p.image)
  }

  /** Saving the post form into `p`: the form's fields are written and
      nothing else, so id, author, `is_published` and `created_at` stay. */
  function ApplyPostForm(p: Post, f: PostFields): (r: Post)
    ensures r.id == p.id && r.author == p.author
    ensures r.isPublished == p.isPublished && r.createdAt == p.createdAt
    ensures PostFormOf(r) == f
  {
    p.(title := f.title, text := f.text, pubDate := f.pubDate,
       location := f.location, category := f.category, image := f.image)
  }

  /** Saving a post's own initial data changes nothing. */
  lemma PostFormRoundTrip(p: Post)
    ensures ApplyPostForm(p, PostFormOf(p)) == p
  {
  }

  /** The comment form has the single field `text`, which is required. */
  predicate CommentFormValid(text: string) {
    |text| > 0
  }

  /** Saving the comment form into `c` changes its text and nothing else:
      post, author and `created_at` stay. */
  function ApplyCommentForm(c: Comment, text: string): (r: Comment)
    ensures r.text == text
    ensures r.(text := c.text) == c
  {
    c.(text := text)
  }

  /** The profile form: first name, last name and email of a user. */
  datatype ProfileFields = ProfileFields(firstName: string, lastName: string, email: string)

  function ProfileFormOf(u: User): ProfileFields {
    ProfileFields(u.firstName, u.lastName, u.email)
  }

  /** Saving the profile form into `u`: the three fields are written; id and
      username stay. */
  function ApplyProfileForm(u: User, f: ProfileFields): (r: User)
    ensures r.id == u.id && r.username == u.username
    ensures ProfileFormOf(r) == f
  {
    u.(firstName := f.firstName, lastName := f.lastName, email := f.email)
  }
}

=== FILE: mixins.dfy ===
/** The ownership guard in front of post and comment edit and delete: the
    request proceeds, is redirected to a post's detail page, or fails. */
module Mixins {
  import opened Common
  import opened Models
  import opened Utils

  /** The outcome of the guard. `Redirect` sends the requester to the detail
      page of `postId` instead of performing the change. */
  datatype Guard = Proceed | Redirect(postId: nat) | Abort(failure: Failure)

  /** Pages a request can redirect to. */
  datatype Page = DetailPage(postId: nat) | ProfilePage(username: string)

  /** The post guard. The post is loaded through the single-post gate as the
      requester, so a post hidden from the requester is not found before
      ownership is looked at; a post the requester can open but did not
      write redirects to its detail page; the author proceeds. */
  function PostGuard(s: Store, requester: User, postId: nat, now: int): (r: Guard)
    ensures r.Abort? <==> AvailPostById(s, requester.username, postId, now).Fail?
    ensures r.Abort? ==> r.failure == AvailPostById(s, requester.username, postId, now).failure
    ensures r.Redirect? ==>
      && r.postId == postId
      && FindPost(s, postId).Some? && FindPost(s, postId).value.author != requester.id
    ensures r.Proceed? ==> FindPost(s, postId).Some? && FindPost(s, postId).value.author == requester.id
  {
    match AvailPostById(s, requester.username, postId, now)
    case Fail(f) => Abort(f)
    case Found(p) => if p.author != requester.id then Redirect(postId) else Proceed
  }

  /** For the author of a post the guard proceeds, except for the server
      error a published post with a null category raises in the gate. */
  lemma AuthorPassesPostGuard(s: Store, p: Post, requester: User, now: int)
    requires WellFormed(s) && p in s.posts && requester in s.users
    requires requester.id == p.author
    ensures PostGuard(s, requester, p.id, now) ==
      if p.isPublished && p.category.None? then Abort(ServerError) else Proceed
  {
    FindUserOf(s, requester);
    AuthorSeesOwnPost(s, p, now);
  }

  /** For anyone else the guard redirects to the post's detail page when the
      post is open to them, and is not found when it is hidden. */
  lemma NonAuthorStoppedByPostGuard(s: Store, p: Post, requester: User, now: int)
    requires WellFormed(s) && p in s.posts && requester in s.users
    requires requester.id != p.author
    requires !(p.isPublished && p.category.None?)
    ensures PostGuard(s, requester, p.id, now) ==
      if OpenableByAnyone(s, p, now) then Redirect(p.id) else Abort(NotFound)
  {
    NonAuthorSeesOnlyOpenPosts(s, p, requester, now);
  }

  /** The comment guard. The comment is loaded by its own id alone, with no
      visibility check and no check that it belongs to the post in the URL;
      a requester who did not write it is redirected to the detail page of
      the URL's post, its author proceeds. */
  function CommentGuard(s: Store, requester: User, commentId: nat, urlPostId: nat): (r: Guard)
    ensures r.Abort? <==> forall c :: c in s.comments ==> c.id != commentId
    ensures r.Abort? ==> r.failure == NotFound
    ensures r.Redirect? <==>
      FindComment(s, commentId).Some? && FindComment(s, commentId).value.author != requester.id
    ensures r.Redirect? ==> r.postId == urlPostId
    ensures r.Proceed? <==>
      FindComment(s, commentId).Some? && FindComment(s, commentId).value.author == requester.id
  {
    match FindComment(s, commentId)
    case None => Abort(NotFound)
    case Some(c) => if c.author != requester.id then Redirect(urlPostId) else Proceed
  }
}

=== FILE: models.dfy ===
/** The blog's records and the rules of the store that holds them: record
    shapes and defaults, uniqueness, referential integrity, the effects of
    deleting a row, and the order of a post's comments. */
module Models {
  import opened Common
  import opened Seqs

  /** Maximum length of a post or category title and of a location name. */
  const MaxTitleLength := 256

  /** Maximum length of a category slug, the slug field's default. */
  const MaxSlugLength := 50

  /** A row of the authentication collaborator's user table. */
  datatype User = User(id: nat, username: string, firstName: string, lastName: string, email: string)

  datatype Category = Category(
    id: nat, title: string, description: string, slug: string,
    isPublished: bool, createdAt: int)

  datatype Location = Location(id: nat, name: string, isPublished: bool, createdAt: int)

  /** A post. `author` is the id of a user; `location` and `category` are
      nullable references. An empty `image` means no image. */
  datatype Post = Post(
    id: nat, title: string, text: string, pubDate: int, isPublished: bool,
    author: nat, location: Option<nat>, category: Option<nat>,
    image: string, createdAt: int)

  datatype Comment = Comment(id: nat, text: string, post: nat, createdAt: int, author: nat)

  /** The tables of the datastore. */
  datatype Store = Store(
    users: seq<User>, categories: seq<Category>, locations: seq<Location>,
    posts: seq<Post>, comments: seq<Comment>)

  function UserKey(u: User): nat { u.id }
  function UserName(u: User): string { u.username }
  function CategoryKey(c: Category): nat { c.id }
  function CategorySlug(c: Category): string { c.slug }
  function LocationKey(l: Location): nat { l.id }
  function PostKey(p: Post): nat { p.id }
  function CommentKey(c: Comment): nat { c.id }
  function CommentCreatedAt(c: Comment): int { c.createdAt }

  function UserIds(s: Store): set<nat> { set u | u in s.users :: u.id }
  function CategoryIds(s: Store): set<nat> { set c | c in s.categories :: c.id }
  function LocationIds(s: Store): set<nat> { set l | l in s.locations :: l.id }
  function PostIds(s: Store): set<nat> { IdsOf(s.posts) }
  function IdsOf(ps: seq<Post>): set<nat> { set p | p in ps :: p.id }

  /** A post's foreign keys point at existing rows. */
  predicate PostRefsValid(s: Store, p: Post) {
    && p.author in UserIds(s)
    && (p.category.Some? ==> p.category.value in CategoryIds(s))
    && (p.location.Some? ==> p.location.value in LocationIds(s))
  }

  /** A comment's foreign keys point at existing rows. */
  predicate CommentRefsValid(s: Store, c: Comment) {
    c.post in PostIds(s) && c.author in UserIds(s)
  }

  /** A category's title and slug fit their columns. */
  predicate CategoryFits(c: Category) {
    |c.title| <= MaxTitleLength && |c.slug| <= MaxSlugLength
  }

  /** What the database keeps true: primary keys, usernames and category
      slugs are unique, titles and names fit their columns, and every
      foreign key points at an existing row. */
  predicate WellFormed(s: Store) {
    && DistinctBy(s.users, UserKey) && DistinctBy(s.users, UserName)
    && DistinctBy(s.categories, CategoryKey) && DistinctBy(s.categories, CategorySlug)
    && DistinctBy(s.locations, LocationKey)
    && DistinctBy(s.posts, PostKey)
    && DistinctBy(s.comments, CommentKey)
    && (forall c :: c in s.categories ==> CategoryFits(c))
    && (forall l :: l in s.locations ==> |l.name| <= MaxTitleLength)
    && (forall p :: p in s.posts ==> |p.title| <= MaxTitleLength && PostRefsValid(s, p))
    && (forall c :: c in s.comments ==> CommentRefsValid(s, c))
  }

  // Lookups by primary key and by the unique columns.

  function UserWithId(id: nat): User -> bool { (u: User) => u.id == id }
  function UserNamed(name: string): User -> bool { (u: User) => u.username == name }
  function CategoryWithId(id: nat): Category -> bool { (c: Category) => c.id == id }
  function PostWithId(id: nat): Post -> bool { (p: Post) => p.id == id }
  function CommentWithId(id: nat): Comment -> bool { (c: Comment) => c.id == id }

  function FindUser(s: Store, id: nat): (r: Option<User>)
    ensures r.Some? ==> r.value in s.users && r.value.id == id
    ensures r.None? <==> id !in UserIds(s)
  {
    Find(s.users, UserWithId(id))
  }

  function FindUserByName(s: Store, name: string): (r: Option<User>)
    ensures r.Some? ==> r.value in s.users && r.value.username == name
    ensures r.None? <==> forall u :: u in s.users ==> u.username != name
  {
    Find(s.users, UserNamed(name))
  }

  function FindCategory(s: Store, id: nat): (r: Option<Category>)
    ensures r.Some? ==> r.value in s.categories && r.value.id == id
    ensures r.None? <==> id !in CategoryIds(s)
  {
    Find(s.categories, CategoryWithId(id))
  }

  function FindPost(s: Store, id: nat): (r: Option<Post>)
    ensures r.Some? ==> r.value in s.posts && r.value.id == id
    ensures r.None? <==> id !in PostIds(s)
  {
    Find(s.posts, PostWithId(id))
  }

  function FindComment(s: Store, id: nat): (r: Option<Comment>)
    ensures r.Some? ==> r.value in s.comments && r.value.id == id
    ensures r.None? <==> forall c :: c in s.comments ==> c.id != id
  {
    Find(s.comments, CommentWithId(id))
  }

  // With unique keys each lookup finds exactly the row asked for.

  lemma FindPostOf(s: Store, p: Post)
    requires DistinctBy(s.posts, PostKey) && p in s.posts
    ensures FindPost(s, p.id) == Some(p)
  {
    DistinctKeyIdentifies(s.posts, PostKey, FindPost(s, p.id).value, p);
  }

  lemma FindUserOf(s: Store, u: User)
    requires DistinctBy(s.users, UserKey) && u in s.users
    ensures FindUser(s, u.id) == Some(u)
  {
    DistinctKeyIdentifies(s.users, UserKey, FindUser(s, u.id).value, u);
  }

  lemma FindUserByNameOf(s: Store, u: User)
    requires DistinctBy(s.users, UserName) && u in s.users
    ensures FindUserByName(s, u.username) == Some(u)
  {
    DistinctKeyIdentifies(s.users, UserName, FindUserByName(s, u.username).value, u);
  }

  lemma FindCategoryOf(s: Store, c: Category)
    requires DistinctBy(s.categories, CategoryKey) && c in s.categories
    ensures FindCategory(s, c.id) == Some(c)
  {
    DistinctKeyIdentifies(s.categories, CategoryKey, FindCategory(s, c.id).value, c);
  }

  /** Two different users have different usernames. */
  lemma UsernamesDiffer(s: Store, u: User, v: User)
    requires DistinctBy(s.users, UserName) && u in s.users && v in s.users && u != v
    ensures u.username != v.username
  {
    if u.username == v.username {
      DistinctKeyIdentifies(s.users, UserName, u, v);
    }
  }

  /** Appending a post with a new id, a title that fits and valid
      references keeps the store well-formed. */
  lemma AppendPostPreservesWellFormed(s: Store, p: Post)
    requires WellFormed(s)
    requires p.id !in PostIds(s) && |p.title| <= MaxTitleLength && PostRefsValid(s, p)
    ensures WellFormed(s.(posts := s.posts + [p]))
  {
    var r := s.(posts := s.posts + [p]);
    AppendDistinct(s.posts, p, PostKey);
    assert PostIds(s) <= PostIds(r);
  }

  /** Appending a comment with a new id and valid references keeps the
      store well-formed. */
  lemma AppendCommentPreservesWellFormed(s: Store, c: Comment)
    requires WellFormed(s)
    requires (forall d :: d in s.comments ==> d.id != c.id) && CommentRefsValid(s, c)
    ensures WellFormed(s.(comments := s.comments + [c]))
  {
    AppendDistinct(s.comments, c, CommentKey);
  }

  // Creating rows.

  /** Category slugs: non-empty, ASCII letters, digits, hyphen and underscore. */
  predicate IsSlug(slug: string) {
    |slug| > 0 &&
    forall i :: 0 <= i < |slug| ==>
      ('a' <= slug[i] <= 'z') || ('A' <= slug[i] <= 'Z') || ('0' <= slug[i] <= '9')
      || slug[i] == '-' || slug[i] == '_'
  }

  /** Saving a new category: title and description are required, the title
      and the slug must fit their columns, and the slug must be a slug and
      must not already be taken (the unique constraint). The new row gets
      the next id, `created_at` = now and the default `is_published` = true. */
  function AddCategory(s: Store, title: string, description: string, slug: string, now: int)
    : (r: Option<Store>)
    ensures r.None? <==>
      || |title| == 0 || |title| > MaxTitleLength || |description| == 0
      || |slug| > MaxSlugLength || !IsSlug(slug)
      || exists c :: c in s.categories && c.slug == slug
    ensures r.Some? ==>
      && |r.value.categories| == |s.categories| + 1
      && r.value.categories[..|s.categories|] == s.categories
      && var c := r.value.categories[|s.categories|];
      && c.id !in CategoryIds(s) && c.title == title && c.description == description
      && c.slug == slug && c.isPublished && c.createdAt == now
    ensures r.Some? ==> r.value.(categories := s.categories) == s
  {
    if |title| == 0 || |title| > MaxTitleLength || |description| == 0
      || |slug| > MaxSlugLength || !IsSlug(slug) || Find(s.categories, (c: Category) => c.slug == slug).Some? then
      None
    else
      var c := Category(NextKey(s.categories, CategoryKey), title, description, slug, true, now);
      Some(s.(categories := s.categories + [c]))
  }

  /** Saving a new location: the name is required and must fit its column; the new row gets
      the next id, `created_at` = now and the default `is_published` = true. */
  function AddLocation(s: Store, name: string, now: int): (r: Option<Store>)
    ensures r.None? <==> |name| == 0 || |name| > MaxTitleLength
    ensures r.Some? ==>
      && |r.value.locations| == |s.locations| + 1
      && r.value.locations[..|s.locations|] == s.locations
      && var l := r.value.locations[|s.locations|];
      && l.id !in LocationIds(s) && l.name == name && l.isPublished && l.createdAt == now
    ensures r.Some? ==> r.value.(locations := s.locations) == s
  {
    if |name| == 0 || |name| > MaxTitleLength then None
    else
      var l := Location(NextKey(s.locations, LocationKey), name, true, now);
      Some(s.(locations := s.locations + [l]))
  }

  lemma AddCategoryPreservesWellFormed(s: Store, title: string, description: string, slug: string, now: int)
    requires WellFormed(s)
    requires AddCategory(s, title, description, slug, now).Some?
    ensures WellFormed(AddCategory(s, title, description, slug, now).value)
  {
    var r := AddCategory(s, title, description, slug, now).value;
    var c := r.categories[|s.categories|];
    assert r.categories == s.categories + [c];
    AppendDistinct(s.categories, c, CategoryKey);
    AppendDistinct(s.categories, c, CategorySlug);
    assert CategoryIds(s) <= CategoryIds(r);
  }

  lemma AddLocationPreservesWellFormed(s: Store, name: string, now: int)
    requires WellFormed(s)
    requires AddLocation(s, name, now).Some?
    ensures WellFormed(AddLocation(s, name, now).value)
  {
    var r := AddLocation(s, name, now).value;
    var l := r.locations[|s.locations|];
    assert r.locations == s.locations + [l];
    AppendDistinct(s.locations, l, LocationKey);
    assert LocationIds(s) <= LocationIds(r);
  }

  // Deleting rows: SET_NULL for category and location, CASCADE for post
  // and user.

  function CategoryNot(id: nat): Category -> bool { (c: Category) => c.id != id }
  function LocationNot(id: nat): Location -> bool { (l: Location) => l.id != id }
  function PostNot(id: nat): Post -> bool { (p: Post) => p.id != id }
  function NotOnPost(id: nat): Comment -> bool { (c: Comment) => c.post != id }

  /** Deleting a category nulls the category of the posts that had it; the
      posts themselves survive. */
  function DeleteCategory(s: Store, id: nat): (r: Store)
    ensures forall c :: c in r.categories <==> c in s.categories && c.id != id
    ensures |r.posts| == |s.posts|
    ensures forall i :: 0 <= i < |r.posts| ==>
      && r.posts[i].(category := None) == s.posts[i].(category := None)
      && r.posts[i].category == (if s.posts[i].category == Some(id) then None else s.posts[i].category)
      && (s.posts[i].category != Some(id) ==> r.posts[i] == s.posts[i])
    ensures r.users == s.users && r.locations == s.locations && r.comments == s.comments
  {
    s.(categories := Filter(s.categories, CategoryNot(id)),
       posts := seq(|s.posts|, i requires 0 <= i < |s.posts| =>
         if s.posts[i].category == Some(id) then s.posts[i].(category := None) else s.posts[i]))
  }

  /** Deleting a location nulls the location of the posts that had it; the
      posts themselves survive. */
  function DeleteLocation(s: Store, id: nat): (r: Store)
    ensures forall l :: l in r.locations <==> l in s.locations && l.id != id
    ensures |r.posts| == |s.posts|
    ensures forall i :: 0 <= i < |r.posts| ==>
      && r.posts[i].(location := None) == s.posts[i].(location := None)
      && r.posts[i].location == (if s.posts[i].location == Some(id) then None else s.posts[i].location)
      && (s.posts[i].location != Some(id) ==> r.posts[i] == s.posts[i])
    ensures r.users == s.users && r.categories == s.categories && r.comments == s.comments
  {
    s.(locations := Filter(s.locations, LocationNot(id)),
       posts := seq(|s.posts|, i requires 0 <= i < |s.posts| =>
         if s.posts[i].location == Some(id) then s.posts[i].(location := None) else s.posts[i]))
  }

  /** Deleting a post deletes its comments. */
  function DeletePost(s: Store, id: nat): (r: Store)
    ensures forall p :: p in r.posts <==> p in s.posts && p.id != id
    ensures forall c :: c in r.comments <==> c in s.comments && c.post != id
    ensures r.users == s.users && r.categories == s.categories && r.locations == s.locations
  {
    s.(posts := Filter(s.posts, PostNot(id)), comments := Filter(s.comments, NotOnPost(id)))
  }

  /** Ids of the posts written by user `uid`. */
  function AuthoredPostIds(s: Store, uid: nat): set<nat> {
    set p | p in s.posts && p.author == uid :: p.id
  }

  function UserNot(id: nat): User -> bool { (u: User) => u.id != id }
  function NotByAuthor(id: nat): Post -> bool { (p: Post) => p.author != id }
  function CommentSurvives(id: nat, gone: set<nat>): Comment -> bool {
    (c: Comment) => c.author != id && c.post !in gone
  }

  /** Deleting a user deletes their posts and their comments, and through
      the posts, every comment on those posts. */
  function DeleteUser(s: Store, id: nat): (r: Store)
    ensures forall u :: u in r.users <==> u in s.users && u.id != id
    ensures forall p :: p in r.posts <==> p in s.posts && p.author != id
    ensures forall c :: c in r.comments <==>
      c in s.comments && c.author != id && c.post !in AuthoredPostIds(s, id)
    ensures r.categories == s.categories && r.locations == s.locations
  {
    s.(users := Filter(s.users, UserNot(id)),
       posts := Filter(s.posts, NotByAuthor(id)),
       comments := Filter(s.comments, CommentSurvives(id, AuthoredPostIds(s, id))))
  }

  /** Rewriting posts in place, keeping each one's id, keeps the ids unique
      and the set of ids the same. */
  lemma SameIdsKeepKeys(a: seq<Post>, b: seq<Post>)
    requires |a| == |b| && forall i :: 0 <= i < |a| ==> b[i].id == a[i].id
    requires DistinctBy(a, PostKey)
    ensures DistinctBy(b, PostKey)
    ensures IdsOf(a) == IdsOf(b)
  {
    assert forall i :: 0 <= i < |a| ==> PostKey(b[i]) == PostKey(a[i]);
    forall x | x in IdsOf(a) ensures x in IdsOf(b) {
      var i :| 0 <= i < |a| && a[i].id == x;
      assert b[i] in b;
    }
    forall x | x in IdsOf(b) ensures x in IdsOf(a) {
      var i :| 0 <= i < |b| && b[i].id == x;
      assert a[i] in a;
    }
  }

  lemma DeleteCategoryPreservesWellFormed(s: Store, id: nat)
    requires WellFormed(s)
    ensures WellFormed(DeleteCategory(s, id))
  {
    var r := DeleteCategory(s, id);
    FilterDistinct(s.categories, CategoryNot(id), CategoryKey);
    FilterDistinct(s.categories, CategoryNot(id), CategorySlug);
    SameIdsKeepKeys(s.posts, r.posts);
    assert forall c :: c in r.categories ==> c in s.categories;
    forall p | p in r.posts ensures |p.title| <= MaxTitleLength && PostRefsValid(r, p) {
      var i :| 0 <= i < |r.posts| && r.posts[i] == p;
      assert s.posts[i] in s.posts;
      if p.category.Some? {
        var c :| c in s.categories && c.id == p.category.value;
        assert c in r.categories;
      }
    }
  }

  lemma DeleteLocationPreservesWellFormed(s: Store, id: nat)
    requires WellFormed(s)
    ensures WellFormed(DeleteLocation(s, id))
  {
    var r := DeleteLocation(s, id);
    FilterDistinct(s.locations, LocationNot(id), LocationKey);
    SameIdsKeepKeys(s.posts, r.posts);
    forall p | p in r.posts ensures |p.title| <= MaxTitleLength && PostRefsValid(r, p) {
      var i :| 0 <= i < |r.posts| && r.posts[i] == p;
      assert s.posts[i] in s.posts;
      if p.location.Some? {
        var l :| l in s.locations && l.id == p.location.value;
        assert l in r.locations;
      }
    }
  }

  lemma DeletePostPreservesWellFormed(s: Store, id: nat)
    requires WellFormed(s)
    ensures WellFormed(DeletePost(s, id))
  {
    var r := DeletePost(s, id);
    FilterDistinct(s.posts, PostNot(id), PostKey);
    FilterDistinct(s.comments, NotOnPost(id), CommentKey);
    forall c | c in r.comments ensures CommentRefsValid(r, c) {
      var p :| p in s.posts && p.id == c.post;
      assert p in r.posts;
    }
  }

  lemma DeleteUserPreservesWellFormed(s: Store, id: nat)
    requires WellFormed(s)
    ensures WellFormed(DeleteUser(s, id))
  {
    var r := DeleteUser(s, id);
    FilterDistinct(s.users, UserNot(id), UserKey);
    FilterDistinct(s.users, UserNot(id), UserName);
    FilterDistinct(s.posts, NotByAuthor(id), PostKey);
    FilterDistinct(s.comments, CommentSurvives(id, AuthoredPostIds(s, id)), CommentKey);
    forall p | p in r.posts ensures PostRefsValid(r, p) {
      var u :| u in s.users && u.id == p.author;
      assert u in r.users;
    }
    forall c | c in r.comments ensures CommentRefsValid(r, c) {
      var p :| p in s.posts && p.id == c.post;
      assert p.author != id;
      assert p in r.posts;
      var u :| u in s.users && u.id == c.author;
      assert u in r.users;
    }
  }

  // The comments of a post.

  function OnPost(id: nat): Comment -> bool { (c: Comment) => c.post == id }

  /** The number of comments on post `postId`: the `comment_count`
      annotation of the post listings. */
  function CommentCount(cs: seq<Comment>, postId: nat): nat {
    if |cs| == 0 then 0
    else (if cs[0].post == postId then 1 else 0) + CommentCount(cs[1..], postId)
  }

  lemma {:induction false} CommentCountIsFilterLength(cs: seq<Comment>, postId: nat)
    ensures CommentCount(cs, postId) == |Filter(cs, OnPost(postId))|
  {
    if |cs| > 0 {
      CommentCountIsFilterLength(cs[1..], postId);
    }
  }

  /** The comments of post `postId`, oldest first (the model's default
      ordering by `created_at`). Their number is the post's comment count. */
  function CommentsOf(s: Store, postId: nat): (r: seq<Comment>)
    ensures forall c :: c in r <==> c in s.comments && c.post == postId
    ensures forall i, j :: 0 <= i < j < |r| ==> r[i].createdAt <= r[j].createdAt
    ensures |r| == CommentCount(s.comments, postId)
  {
    var mine := Filter(s.comments, OnPost(postId));
    CommentCountIsFilterLength(s.comments, postId);
    var r := SortBy(mine, CommentCreatedAt);
    SortByKeepsElements(mine, CommentCreatedAt);
    r
  }
}

=== FILE: seqs.dfy ===
/** Sequence operations standing in for the ORM's filter, lookup and
    order_by: a filter that keeps order, a first-match lookup, a sort by an
    integer key and a fresh auto-increment key. */
module Seqs {
  import opened Common

  /** No two elements of `s` share a key. */
  predicate DistinctBy<T, K(==)>(s: seq<T>, key: T -> K) {
    forall i, j :: 0 <= i < j < |s| ==> key(s[i]) != key(s[j])
  }

  /** `s` is in ascending order of `key`. */
  predicate SortedBy<T>(s: seq<T>, key: T -> int) {
    forall i, j :: 0 <= i < j < |s| ==> key(s[i]) <= key(s[j])
  }

  /** The elements of `s` that satisfy `keep`, in their original order. */
  function Filter<T(!new)>(s: seq<T>, keep: T -> bool): (r: seq<T>)
    ensures |r| <= |s|
    ensures forall x :: x in r <==> x in s && keep(x)
  {
    if |s| == 0 then []
    else if keep(s[0]) then [s[0]] + Filter(s[1..], keep)
    else Filter(s[1..], keep)
  }

  /** The first element of `s` that satisfies `matches`, if any. */
  function Find<T(!new)>(s: seq<T>, matches: T -> bool): (r: Option<T>)
    ensures r.Some? ==> r.value in s && matches(r.value)
    ensures r.None? <==> forall x :: x in s ==> !matches(x)
  {
    if |s| == 0 then None
    else if matches(s[0]) then Some(s[0])
    else Find(s[1..], matches)
  }

  /** A key greater than every key in `s`: the next auto-increment value. */
  function NextKey<T(!new)>(s: seq<T>, key: T -> nat): (r: nat)
    ensures r > 0
    ensures forall x :: x in s ==> key(x) < r
  {
    if |s| == 0 then 1
    else
      var rest := NextKey(s[1..], key);
      if key(s[0]) < rest then rest else key(s[0]) + 1
  }

  /** Inserts `x` into the sorted `s` in front of the first element whose key
      is not smaller. */
  function Insert<T(!new)>(x: T, s: seq<T>, key: T -> int): (r: seq<T>)
    requires SortedBy(s, key)
    ensures SortedBy(r, key)
    ensures multiset(r) == multiset(s) + multiset{x}
  {
    if |s| == 0 then [x]
    else if key(x) <= key(s[0]) then
      SortedCons(x, s, key);
      [x] + s
    else
      var rest := Insert(x, s[1..], key);
      assert s == [s[0]] + s[1..];
      assert forall y :: y in rest ==> key(s[0]) <= key(y) by {
        forall y | y in rest ensures key(s[0]) <= key(y) {
          assert y in multiset(rest);
          if y != x {
            assert y in multiset(s[1..]);
            var j :| 0 <= j < |s[1..]| && s[1..][j] == y;
            assert s[j + 1] == y;
          }
        }
      }
      SortedCons(s[0], rest, key);
      [s[0]] + rest
  }

  /** A sorted sequence stays sorted under a head no greater than its elements. */
  lemma SortedCons<T>(h: T, t: seq<T>, key: T -> int)
    requires SortedBy(t, key)
    requires forall y :: y in t ==> key(h) <= key(y)
    ensures SortedBy([h] + t, key)
  {
    var r := [h] + t;
    forall i, j | 0 <= i < j < |r| ensures key(r[i]) <= key(r[j]) {
      assert r[j] == t[j - 1];
      if i > 0 {
        assert r[i] == t[i - 1];
      } else {
        assert r[j] in t;
      }
    }
  }

  /** Insertion sort: a permutation of `s` in ascending order of `key`. */
  function SortBy<T(!new)>(s: seq<T>, key: T -> int): (r: seq<T>)
    ensures SortedBy(r, key)
    ensures multiset(r) == multiset(s)
  {
    if |s| == 0 then []
    else
      assert s == [s[0]] + s[1..];
      Insert(s[0], SortBy(s[1..], key), key)
  }

  /** Sorting keeps the length and the elements. */
  lemma SortByKeepsElements<T(!new)>(s: seq<T>, key: T -> int)
    ensures |SortBy(s, key)| == |s|
    ensures forall x :: x in SortBy(s, key) <==> x in s
  {
    var r := SortBy(s, key);
    assert |r| == |multiset(r)| == |multiset(s)| == |s|;
    forall x ensures x in r <==> x in s {
      assert x in r <==> x in multiset(r);
    }
  }

  /** Two elements of a key-distinct sequence with the same key are equal. */
  lemma DistinctKeyIdentifies<T, K>(s: seq<T>, key: T -> K, x: T, y: T)
    requires DistinctBy(s, key)
    requires x in s && y in s && key(x) == key(y)
    ensures x == y
  {
    var i :| 0 <= i < |s| && s[i] == x;
    var j :| 0 <= j < |s| && s[j] == y;
    assert key(s[i]) == key(s[j]);
  }

  /** Filtering keeps the order of its input. */
  lemma {:induction false} FilterSorted<T(!new)>(s: seq<T>, keep: T -> bool, key: T -> int)
    requires SortedBy(s, key)
    ensures SortedBy(Filter(s, keep), key)
  {
    if |s| > 0 {
      FilterSorted(s[1..], keep, key);
      var rest := Filter(s[1..], keep);
      if keep(s[0]) {
        forall y | y in rest ensures key(s[0]) <= key(y) {
          var j :| 0 <= j < |s[1..]| && s[1..][j] == y;
          assert s[j + 1] == y;
        }
      }
    }
  }

  /** Filtering a key-distinct sequence leaves it key-distinct. */
  lemma {:induction false} FilterDistinct<T(!new), K>(s: seq<T>, keep: T -> bool, key: T -> K)
    requires DistinctBy(s, key)
    ensures DistinctBy(Filter(s, keep), key)
  {
    if |s| > 0 {
      FilterDistinct(s[1..], keep, key);
      var rest := Filter(s[1..], keep);
      if keep(s[0]) {
        forall y | y in rest ensures key(s[0]) != key(y) {
          var j :| 0 <= j < |s[1..]| && s[1..][j] == y;
          assert s[j + 1] == y;
        }
      }
    }
  }

  /** Inserting an element whose key is new keeps a sequence key-distinct. */
  lemma {:induction false} InsertDistinct<T(!new), K>(x: T, s: seq<T>, key: T -> int, id: T -> K)
    requires SortedBy(s, key) && DistinctBy(s, id)
    requires forall y :: y in s ==> id(y) != id(x)
    ensures DistinctBy(Insert(x, s, key), id)
  {
    if |s| > 0 && key(s[0]) < key(x) {
      InsertDistinct(x, s[1..], key, id);
      var rest := Insert(x, s[1..], key);
      forall y | y in rest ensures id(s[0]) != id(y) {
        assert y in multiset(rest);
        if y != x {
          var j :| 0 <= j < |s[1..]| && s[1..][j] == y;
          assert s[j + 1] == y;
        }
      }
    }
  }

  /** Sorting a key-distinct sequence leaves it key-distinct. */
  lemma {:induction false} SortDistinct<T(!new), K>(s: seq<T>, key: T -> int, id: T -> K)
    requires DistinctBy(s, id)
    ensures DistinctBy(SortBy(s, key), id)
  {
    if |s| > 0 {
      assert DistinctBy(s[1..], id);
      SortDistinct(s[1..], key, id);
      var sorted := SortBy(s[1..], key);
      forall y | y in sorted ensures id(y) != id(s[0]) {
        assert y in multiset(sorted);
        var j :| 0 <= j < |s[1..]| && s[1..][j] == y;
        assert s[j + 1] == y;
      }
      InsertDistinct(s[0], sorted, key, id);
    }
  }

  /** Appending an element with a new key keeps a sequence key-distinct. */
  lemma AppendDistinct<T, K>(s: seq<T>, x: T, key: T -> K)
    requires DistinctBy(s, key)
    requires forall y :: y in s ==> key(y) != key(x)
    ensures DistinctBy(s + [x], key)
  {
    var r := s + [x];
    forall i, j | 0 <= i < j < |r| ensures key(r[i]) != key(r[j]) {
      if j == |s| {
        assert r[i] in s;
      } else {
        assert r[i] == s[i] && r[j] == s[j];
      }
    }
  }

  /** Concatenating key-distinct sequences with no key in common gives a
      key-distinct sequence. */
  lemma ConcatDistinct<T, K>(a: seq<T>, b: seq<T>, key: T -> K)
    requires DistinctBy(a, key) && DistinctBy(b, key)
    requires forall x, y :: x in a && y in b ==> key(x) != key(y)
    ensures DistinctBy(a + b, key)
  {
    var r := a + b;
    forall i, j | 0 <= i < j < |r| ensures key(r[i]) != key(r[j]) {
      if j < |a| {
        assert r[i] == a[i] && r[j] == a[j];
      } else if i < |a| {
        assert r[i] == a[i] && r[j] == b[j - |a|];
        assert a[i] in a && b[j - |a|] in b;
      } else {
        assert r[i] == b[i - |a|] && r[j] == b[j - |a|];
      }
    }
  }
}

=== FILE: utils.dfy ===
/** The visibility query builder: the post listings (all posts, public
    posts, one author's posts, and their union), each newest first and
    annotated with its comment count, and the single-post gate that decides
    whether a viewer may open a post. */
module Utils {
  import opened Common
  import opened Seqs
  import opened Models

  /** A listed post with its `comment_count` annotation. */
  datatype Listed = Listed(post: Post, commentCount: nat)

  function ListedKey(l: Listed): nat { l.post.id }

  /** Sort key that puts the latest publication date first. */
  function Recency(l: Listed): int { -l.post.pubDate }

  /** The annotation is the number of comments on the post. */
  predicate Annotated(s: Store, l: Listed) {
    l.commentCount == CommentCount(s.comments, l.post.id)
  }

  /** Ordered by publication date, latest first. */
  predicate NewestFirst(r: seq<Listed>) {
    forall i, j :: 0 <= i < j < |r| ==> r[i].post.pubDate >= r[j].post.pubDate
  }

  lemma SortedByRecencyIsNewestFirst(r: seq<Listed>)
    requires SortedBy(r, Recency)
    ensures NewestFirst(r)
  {
    forall i, j | 0 <= i < j < |r| ensures r[i].post.pubDate >= r[j].post.pubDate {
      assert Recency(r[i]) <= Recency(r[j]);
    }
  }

  /** The category reference points at a published category. A null
      reference, like a row that does not match the join, fails. */
  predicate CategoryPublished(s: Store, category: Option<nat>) {
    match category
    case None => false
    case Some(id) =>
      match FindCategory(s, id)
      case None => false
      case Some(c) => c.isPublished
  }

  /** The listing filter: the post is published, its category is published,
      and its publication date lies strictly before `now`. */
  predicate IsPublic(s: Store, p: Post, now: int) {
    p.isPublished && CategoryPublished(s, p.category) && p.pubDate < now
  }

  /** Pairs each post with its comment count. */
  function Annotate(s: Store, ps: seq<Post>): (r: seq<Listed>)
    ensures |r| == |ps|
    ensures forall i :: 0 <= i < |r| ==> r[i].post == ps[i] && Annotated(s, r[i])
    ensures forall l :: l in r <==> l.post in ps && Annotated(s, l)
  {
    var r := seq(|ps|, i requires 0 <= i < |ps| => Listed(ps[i], CommentCount(s.comments, ps[i].id)));
    assert forall l: Listed :: l.post in ps && Annotated(s, l) ==> l in r by {
      forall l: Listed | l.post in ps && Annotated(s, l) ensures l in r {
        var i :| 0 <= i < |ps| && ps[i] == l.post;
        assert r[i] == l;
      }
    }
    r
  }

  /** All posts, newest first, each with its comment count. */
  function AllPosts(s: Store): (r: seq<Listed>)
    ensures |r| == |s.posts|
    ensures forall l :: l in r <==> l.post in s.posts && Annotated(s, l)
    ensures NewestFirst(r)
  {
    var annotated := Annotate(s, s.posts);
    var r := SortBy(annotated, Recency);
    SortedByRecencyIsNewestFirst(r);
    assert |r| == |multiset(r)| == |multiset(annotated)| == |annotated|;
    assert forall l :: l in r <==> l in annotated by {
      forall l ensures l in r <==> l in annotated {
        assert l in r <==> l in multiset(r);
      }
    }
    r
  }

  function PublicAt(s: Store, now: int): Listed -> bool {
    (l: Listed) => IsPublic(s, l.post, now)
  }

  /** The public listing: exactly the posts that pass the listing filter,
      newest first, each with its comment count. */
  function PubPosts(s: Store, now: int): (r: seq<Listed>)
    ensures forall l :: l in r <==> l.post in s.posts && Annotated(s, l) && IsPublic(s, l.post, now)
    ensures NewestFirst(r)
  {
    var all := AllPosts(s);
    var r := Filter(all, PublicAt(s, now));
    FilterSorted(all, PublicAt(s, now), Recency);
    assert SortedBy(all, Recency) by {
      forall i, j | 0 <= i < j < |all| ensures Recency(all[i]) <= Recency(all[j]) {
        assert all[i].post.pubDate >= all[j].post.pubDate;
      }
    }
    SortedByRecencyIsNewestFirst(r);
    r
  }

  function ByAuthor(uid: nat): Listed -> bool { (l: Listed) => l.post.author == uid }

  /** One author's posts, whatever their published, category or date state;
      an unknown username is not found. */
  function AuthorPosts(s: Store, username: string): (r: Fetch<seq<Listed>>)
    ensures r.Fail? <==> forall u :: u in s.users ==> u.username != username
    ensures r.Fail? ==> r.failure == NotFound
    ensures r.Found? ==>
      var u := FindUserByName(s, username).value;
      forall l :: l in r.value <==> l.post in s.posts && Annotated(s, l) && l.post.author == u.id
    ensures r.Found? ==> NewestFirst(r.value)
  {
    match FindUserByName(s, username)
    case None => Fail(NotFound)
    case Some(u) =>
      var all := AllPosts(s);
      assert SortedBy(all, Recency) by {
        forall i, j | 0 <= i < j < |all| ensures Recency(all[i]) <= Recency(all[j]) {
          assert all[i].post.pubDate >= all[j].post.pubDate;
        }
      }
      FilterSorted(all, ByAuthor(u.id), Recency);
      SortedByRecencyIsNewestFirst(Filter(all, ByAuthor(u.id)));
      Found(Filter(all, ByAuthor(u.id)))
  }

  /** The username of a post's author, when the author row exists. */
  function AuthorName(s: Store, p: Post): Option<string> {
    match FindUser(s, p.author)
    case None => None
    case Some(u) => Some(u.username)
  }

  /** In a well-formed store an author's listing holds exactly the posts
      whose author has that username. */
  lemma AuthorPostsByUsername(s: Store, username: string)
    requires WellFormed(s)
    requires AuthorPosts(s, username).Found?
    ensures forall l :: l in AuthorPosts(s, username).value <==>
      l.post in s.posts && Annotated(s, l) && AuthorName(s, l.post) == Some(username)
  {
    var u := FindUserByName(s, username).value;
    forall l: Listed | l.post in s.posts
      ensures l.post.author == u.id <==> AuthorName(s, l.post) == Some(username)
    {
      var a := FindUser(s, l.post.author);
      assert a.Some?;
      if a.value.username == username {
        DistinctKeyIdentifies(s.users, UserName, a.value, u);
      }
    }
  }

  function IdNotIn(ids: set<nat>): Listed -> bool { (l: Listed) => l.post.id !in ids }

  function ListedIds(r: seq<Listed>): set<nat> { set l | l in r :: l.post.id }

  /** The union of an author's posts and the public posts: the author's
      listing followed by the public posts it does not already hold. */
  function AvailPosts(s: Store, username: string, now: int): (r: Fetch<seq<Listed>>)
    ensures r.Fail? <==> AuthorPosts(s, username).Fail?
    ensures r.Fail? ==> r.failure == NotFound
    ensures r.Found? ==> forall l :: l in r.value ==> l in AuthorPosts(s, username).value || l in PubPosts(s, now)
    ensures r.Found? ==> forall l :: l in AuthorPosts(s, username).value ==> l in r.value
  {
    match AuthorPosts(s, username)
    case Fail(f) => Fail(f)
    case Found(mine) =>
      Found(mine + Filter(PubPosts(s, now), IdNotIn(ListedIds(mine))))
  }

  /** Each listing of a well-formed store holds each post at most once. */
  lemma ListingsDistinct(s: Store, now: int)
    requires WellFormed(s)
    ensures DistinctBy(AllPosts(s), ListedKey)
    ensures DistinctBy(PubPosts(s, now), ListedKey)
  {
    var annotated := Annotate(s, s.posts);
    assert DistinctBy(annotated, ListedKey) by {
      forall i, j | 0 <= i < j < |annotated| ensures ListedKey(annotated[i]) != ListedKey(annotated[j]) {
        assert PostKey(s.posts[i]) != PostKey(s.posts[j]);
      }
    }
    SortDistinct(annotated, Recency, ListedKey);
    FilterDistinct(AllPosts(s), PublicAt(s, now), ListedKey);
  }

  /** In a well-formed store the union holds every author post and every
      public post, and no post twice. */
  lemma AvailPostsUnion(s: Store, username: string, now: int)
    requires WellFormed(s)
    requires AvailPosts(s, username, now).Found?
    ensures forall l :: l in PubPosts(s, now) ==> l in AvailPosts(s, username, now).value
    ensures DistinctBy(AvailPosts(s, username, now).value, ListedKey)
  {
    var mine := AuthorPosts(s, username).value;
    var pub := PubPosts(s, now);
    var rest := Filter(pub, IdNotIn(ListedIds(mine)));
    var r := mine + rest;
    assert r == AvailPosts(s, username, now).value;
    ListingsDistinct(s, now);
    var u := FindUserByName(s, username).value;
    FilterDistinct(AllPosts(s), ByAuthor(u.id), ListedKey);
    FilterDistinct(pub, IdNotIn(ListedIds(mine)), ListedKey);
    forall l | l in pub ensures l in r {
      if l.post.id in ListedIds(mine) {
        var m :| m in mine && m.post.id == l.post.id;
        DistinctKeyIdentifies(s.posts, PostKey, m.post, l.post);
      }
    }
    forall x, y | x in mine && y in rest ensures ListedKey(x) != ListedKey(y) {
      assert x.post.id in ListedIds(mine);
    }
    ConcatDistinct(mine, rest, ListedKey);
  }

  /** The single-post gate. Not found when the post or the viewer's username
      does not exist; a server error when a published post has a null
      category, whose `is_published` is then read unguarded, or when the
      author row is missing; not found for a viewer who is not the author
      when the post is unpublished, its category is unpublished, or its
      publication date lies after `now`; otherwise the post. */
  function AvailPostById(s: Store, username: string, postId: nat, now: int): (r: Fetch<Post>)
    ensures r.Found? ==> FindPost(s, postId) == Some(r.value)
    ensures postId !in PostIds(s) ==> r == Fail(NotFound)
    ensures (forall u :: u in s.users ==> u.username != username) ==> r == Fail(NotFound)
    ensures r == Fail(ServerError) <==>
      && postId in PostIds(s)
      && (exists u :: u in s.users && u.username == username)
      && var p := FindPost(s, postId).value;
      || (p.isPublished && (p.category.None? || FindCategory(s, p.category.value).None?))
      || AuthorName(s, p).None?
  {
    match FindPost(s, postId)
    case None => Fail(NotFound)
    case Some(p) =>
      if FindUserByName(s, username).None? then Fail(NotFound)
      else if p.isPublished && (p.category.None? || FindCategory(s, p.category.value).None?) then
        Fail(ServerError)
      else
        var hidden := !p.isPublished || !CategoryPublished(s, p.category) || p.pubDate > now;
        match AuthorName(s, p)
        case None => Fail(ServerError)
        case Some(name) =>
          if name != username && hidden then Fail(NotFound) else Found(p)
  }

  /** The post is the one the gate lets a non-author open: published, in an
      existing published category, and not dated after `now`. */
  predicate OpenableByAnyone(s: Store, p: Post, now: int) {
    p.isPublished && CategoryPublished(s, p.category) && p.pubDate <= now
  }

  /** The author of a post opens it whatever its state, except that a
      published post with a null category is a server error for everyone. */
  lemma AuthorSeesOwnPost(s: Store, p: Post, now: int)
    requires WellFormed(s) && p in s.posts
    ensures var name := FindUser(s, p.author).value.username;
      AvailPostById(s, name, p.id, now) ==
        if p.isPublished && p.category.None? then Fail(ServerError) else Found(p)
  {
    FindPostOf(s, p);
  }

  /** For an existing viewer who is not the author, the gate answers not
      found exactly when the post is hidden: unpublished, in an unpublished
      category, or dated after `now`. */
  lemma NonAuthorSeesOnlyOpenPosts(s: Store, p: Post, viewer: User, now: int)
    requires WellFormed(s) && p in s.posts && viewer in s.users
    requires viewer.id != p.author
    requires !(p.isPublished && p.category.None?)
    ensures AvailPostById(s, viewer.username, p.id, now) ==
      if OpenableByAnyone(s, p, now) then Found(p) else Fail(NotFound)
  {
    FindPostOf(s, p);
    UsernamesDiffer(s, FindUser(s, p.author).value, viewer);
  }

  /** Every listed post opens for every existing viewer. */
  lemma ListedPostsOpen(s: Store, l: Listed, viewer: User, now: int)
    requires WellFormed(s) && viewer in s.users
    requires l in PubPosts(s, now)
    ensures AvailPostById(s, viewer.username, l.post.id, now) == Found(l.post)
  {
    FindPostOf(s, l.post);
  }

  /** Conversely, a post a non-author can open is listed, unless its
      publication date is exactly `now`: the listing compares strictly, the
      gate does not. */
  lemma OpenPostsListedOrDueNow(s: Store, p: Post, viewer: User, now: int)
    requires WellFormed(s) && p in s.posts && viewer in s.users
    requires viewer.id != p.author
    requires AvailPostById(s, viewer.username, p.id, now).Found?
    ensures Listed(p, CommentCount(s.comments, p.id)) in PubPosts(s, now) || p.pubDate == now
  {
    FindPostOf(s, p);
    UsernamesDiffer(s, FindUser(s, p.author).value, viewer);
  }

  /** A published post in a published category dated exactly `now` is
      missing from the listing but opens for every existing viewer. */
  lemma DueNowOpensButIsNotListed(s: Store, p: Post, viewer: User, now: int)
    requires WellFormed(s) && p in s.posts && viewer in s.users
    requires p.isPublished && CategoryPublished(s, p.category) && p.pubDate == now
    ensures forall l :: l in PubPosts(s, now) ==> l.post != p
    ensures AvailPostById(s, viewer.username, p.id, now) == Found(p)
  {
    FindPostOf(s, p);
  }

  /** Deleting a category nulls the category of its posts, so afterwards
      every published post that was in it makes the gate raise a server
      error, for every viewer. */
  lemma DeletedCategoryCrashesGate(s: Store, id: nat, i: nat, viewer: User, now: int)
    requires WellFormed(s) && i < |s.posts| && viewer in s.users
    requires s.posts[i].category == Some(id) && s.posts[i].isPublished
    ensures AvailPostById(DeleteCategory(s, id), viewer.username, s.posts[i].id, now) == Fail(ServerError)
  {
    var r := DeleteCategory(s, id);
    DeleteCategoryPreservesWellFormed(s, id);
    FindPostOf(r, r.posts[i]);
  }
}

=== FILE: views.dfy ===
/** The pages and the endpoints that change the store. Listing pages scope
    the post listings; each mutating endpoint takes the store and the
    requester and returns the new store with the response. */
module Views {
  import opened Common
  import opened Seqs
  import opened Models
  import opened Forms
  import opened Utils
  import opened Mixins

  /** The response to a submitted form: a redirect, the form shown again
      with its errors, or a failure. */
  datatype Response = RedirectTo(page: Page) | FormInvalid | Error(failure: Failure)

  /** The store after a request, with the response sent. */
  datatype Handled = Handled(store: Store, response: Response)

  // Listing pages.

  /** The home page lists exactly the public posts, newest first. */
  function HomeListing(s: Store, now: int): (r: seq<Listed>)
    ensures forall l :: l in r <==> l.post in s.posts && Annotated(s, l) && IsPublic(s, l.post, now)
    ensures NewestFirst(r)
  {
    PubPosts(s, now)
  }

  /** The profile page lists all posts of the named user; an unknown
      username is not found. */
  function ProfileListing(s: Store, username: string): (r: Fetch<seq<Listed>>)
    ensures r.Fail? <==> forall u :: u in s.users ==> u.username != username
    ensures r.Fail? ==> r.failure == NotFound
    ensures r.Found? ==>
      var u := FindUserByName(s, username).value;
      forall l :: l in r.value <==> l.post in s.posts && Annotated(s, l) && l.post.author == u.id
    ensures r.Found? ==> NewestFirst(r.value)
  {
    AuthorPosts(s, username)
  }

  /** The profile page shows every post of its user, including unpublished
      posts, posts in unpublished or deleted categories and future posts. */
  lemma ProfileShowsAllOwnPosts(s: Store, p: Post)
    requires WellFormed(s) && p in s.posts
    ensures var name := FindUser(s, p.author).value.username;
      && ProfileListing(s, name).Found?
      && Listed(p, CommentCount(s.comments, p.id)) in ProfileListing(s, name).value
  {
    FindUserByNameOf(s, FindUser(s, p.author).value);
  }

  function SlugIs(slug: string): Category -> bool {
    (c: Category) => c.slug == slug && c.isPublished
  }

  /** The slug of the category a post is in, if it has one. */
  function CategorySlugOf(s: Store, p: Post): Option<string> {
    match p.category
    case None => None
    case Some(id) =>
      match FindCategory(s, id)
      case None => None
      case Some(c) => Some(c.slug)
  }

  function InCategory(s: Store, slug: string): Listed -> bool {
    (l: Listed) => CategorySlugOf(s, l.post) == Some(slug)
  }

  /** The category page: not found unless a published category has the
      slug, even when posts that would be public refer to it; otherwise the
      category and the public posts whose category has that slug. */
  function CategoryListing(s: Store, slug: string, now: int): (r: Fetch<(Category, seq<Listed>)>)
    ensures r.Fail? <==> forall c :: c in s.categories ==> !(c.slug == slug && c.isPublished)
    ensures r.Fail? ==> r.failure == NotFound
    ensures r.Found? ==> r.value.0 in s.categories && r.value.0.slug == slug && r.value.0.isPublished
    ensures r.Found? ==> forall l :: l in r.value.1 <==>
      l in PubPosts(s, now) && CategorySlugOf(s, l.post) == Some(slug)
    ensures r.Found? ==> NewestFirst(r.value.1)
  {
    match Find(s.categories, SlugIs(slug))
    case None => Fail(NotFound)
    case Some(c) =>
      var pub := PubPosts(s, now);
      var r := Filter(pub, InCategory(s, slug));
      assert NewestFirst(r) by {
        forall i, j | 0 <= i < j < |r| ensures r[i].post.pubDate >= r[j].post.pubDate {
          assert SortedBy(pub, Recency) by {
            forall i', j' | 0 <= i' < j' < |pub| ensures Recency(pub[i']) <= Recency(pub[j']) {
              assert pub[i'].post.pubDate >= pub[j'].post.pubDate;
            }
          }
          FilterSorted(pub, InCategory(s, slug), Recency);
          assert Recency(r[i]) <= Recency(r[j]);
        }
      }
      Found((c, r))
  }

  /** In a well-formed store the category page lists exactly the published
      posts of that category dated before `now`. */
  lemma CategoryListingExact(s: Store, slug: string, now: int)
    requires WellFormed(s)
    requires CategoryListing(s, slug, now).Found?
    ensures var (c, r) := CategoryListing(s, slug, now).value;
      forall l :: l in r <==>
        && l.post in s.posts && Annotated(s, l)
        && l.post.isPublished && l.post.category == Some(c.id) && l.post.pubDate < now
  {
    var (c, r) := CategoryListing(s, slug, now).value;
    FindCategoryOf(s, c);
    forall l: Listed | l.post in s.posts
      ensures CategorySlugOf(s, l.post) == Some(slug) && CategoryPublished(s, l.post.category)
        <==> l.post.category == Some(c.id)
    {
      if CategorySlugOf(s, l.post) == Some(slug) {
        var d := FindCategory(s, l.post.category.value).value;
        DistinctKeyIdentifies(s.categories, CategorySlug, c, d);
      }
    }
  }

  /** The detail page: the post, through the single-post gate, with its
      comments oldest first. */
  function PostDetail(s: Store, requester: User, postId: nat, now: int): (r: Fetch<(Post, seq<Comment>)>)
    ensures r.Fail? <==> AvailPostById(s, requester.username, postId, now).Fail?
    ensures r.Fail? ==> r.failure == AvailPostById(s, requester.username, postId, now).failure
    ensures r.Found? ==> FindPost(s, postId) == Some(r.value.0)
    ensures r.Found? ==> forall c :: c in r.value.1 <==> c in s.comments && c.post == postId
    ensures r.Found? ==> forall i, j :: 0 <= i < j < |r.value.1| ==>
      r.value.1[i].createdAt <= r.value.1[j].createdAt
  {
    match AvailPostById(s, requester.username, postId, now)
    case Fail(f) => Fail(f)
    case Found(p) => Found((p, CommentsOf(s, p.id)))
  }

  /** The comment count a listing shows for a post is the number of comments
      its detail page shows. */
  lemma ListedCountMatchesDetail(s: Store, requester: User, l: Listed, now: int)
    requires l in AllPosts(s)
    requires PostDetail(s, requester, l.post.id, now).Found?
    ensures l.commentCount == |PostDetail(s, requester, l.post.id, now).value.1|
  {
  }

  // Post endpoints.

  /** The post created from a valid form: the next id, the form's fields,
      the requester as author, `is_published` at its default and
      `created_at` = now. */
  function NewPost(s: Store, author: nat, f: PostFields, now: int): Post {
    Post(NextKey(s.posts, PostKey), f.title, f.text, f.pubDate, true,
         author, f.location, f.category, f.image, now)
  }

  /** Creating a post. An invalid form is shown again; a requester with no
      user row is not found; otherwise the post is appended with the
      requester as author and the response redirects to the requester's
      profile. */
  function PostCreate(s: Store, requester: User, f: PostFields, now: int): (r: Handled)
    ensures r.response == FormInvalid <==> !PostFormValid(s, f)
    ensures r.response == Error(NotFound) <==> PostFormValid(s, f) && requester.id !in UserIds(s)
    ensures PostFormValid(s, f) && requester.id in UserIds(s) ==>
      r.response == RedirectTo(ProfilePage(requester.username))
    ensures r.response.RedirectTo? ==> r.response.page == ProfilePage(requester.username)
    ensures !r.response.RedirectTo? ==> r.store == s
    ensures r.response.RedirectTo? ==>
      && r.store.(posts := s.posts) == s
      && |r.store.posts| == |s.posts| + 1
      && r.store.posts[..|s.posts|] == s.posts
      && var p := r.store.posts[|s.posts|];
      && p.id !in PostIds(s) && p.author == requester.id
      && p.isPublished && p.createdAt == now && PostFormOf(p) == f
  {
    if !PostFormValid(s, f) then Handled(s, FormInvalid)
    else
      match FindUser(s, requester.id)
      case None => Handled(s, Error(NotFound))
      case Some(u) =>
        var p := NewPost(s, u.id, f, now);
        assert (s.posts + [p])[..|s.posts|] == s.posts;
        Handled(s.(posts := s.posts + [p]), RedirectTo(ProfilePage(requester.username)))
  }

  /** The posts with the form saved into the one with id `postId`. */
  function SavePostForm(posts: seq<Post>, postId: nat, f: PostFields): (r: seq<Post>)
    ensures |r| == |posts|
    ensures forall i :: 0 <= i < |r| ==>
      r[i] == if posts[i].id == postId then ApplyPostForm(posts[i], f) else posts[i]
  {
    seq(|posts|, i requires 0 <= i < |posts| =>
      if posts[i].id == postId then ApplyPostForm(posts[i], f) else posts[i])
  }

  /** Editing a post. Unless the guard proceeds nothing changes: a hidden
      post is not found, someone else's post redirects to its detail page.
      For the author an invalid form is shown again, a valid one is saved
      into the post and the response redirects to the author's profile. */
  function PostUpdate(s: Store, requester: User, postId: nat, f: PostFields, now: int): (r: Handled)
    ensures !PostGuard(s, requester, postId, now).Proceed? ==> r.store == s
    ensures PostGuard(s, requester, postId, now).Redirect? ==> r.response == RedirectTo(DetailPage(postId))
    ensures PostGuard(s, requester, postId, now).Abort? ==>
      r.response == Error(PostGuard(s, requester, postId, now).failure)
    ensures PostGuard(s, requester, postId, now).Proceed? ==>
      if PostFormValid(s, f) then r.response == RedirectTo(ProfilePage(requester.username))
      else r == Handled(s, FormInvalid)
    ensures r.store.(posts := s.posts) == s && |r.store.posts| == |s.posts|
    ensures forall i :: 0 <= i < |s.posts| ==>
      && r.store.posts[i].id == s.posts[i].id
      && r.store.posts[i].author == s.posts[i].author
      && r.store.posts[i].isPublished == s.posts[i].isPublished
      && r.store.posts[i].createdAt == s.posts[i].createdAt
      && (s.posts[i].id != postId ==> r.store.posts[i] == s.posts[i])
    ensures PostGuard(s, requester, postId, now).Proceed? && PostFormValid(s, f) ==>
      forall i :: 0 <= i < |s.posts| && s.posts[i].id == postId ==> PostFormOf(r.store.posts[i]) == f
  {
    match PostGuard(s, requester, postId, now)
    case Abort(e) => Handled(s, Error(e))
    case Redirect(id) => Handled(s, RedirectTo(DetailPage(id)))
    case Proceed =>
      if !PostFormValid(s, f) then Handled(s, FormInvalid)
      else Handled(s.(posts := SavePostForm(s.posts, postId, f)), RedirectTo(ProfilePage(requester.username)))
  }

  /** Deleting a post. Unless the guard proceeds nothing changes; for the
      author the post and its comments are deleted and the response
      redirects to the author's profile. */
  function PostDelete(s: Store, requester: User, postId: nat, now: int): (r: Handled)
    ensures !PostGuard(s, requester, postId, now).Proceed? ==> r.store == s
    ensures PostGuard(s, requester, postId, now).Redirect? ==> r.response == RedirectTo(DetailPage(postId))
    ensures PostGuard(s, requester, postId, now).Abort? ==>
      r.response == Error(PostGuard(s, requester, postId, now).failure)
    ensures PostGuard(s, requester, postId, now).Proceed? ==>
      && r.response == RedirectTo(ProfilePage(requester.username))
      && (forall p :: p in r.store.posts <==> p in s.posts && p.id != postId)
      && (forall c :: c in r.store.comments <==> c in s.comments && c.post != postId)
      && r.store.users == s.users && r.store.categories == s.categories
      && r.store.locations == s.locations
  {
    match PostGuard(s, requester, postId, now)
    case Abort(e) => Handled(s, Error(e))
    case Redirect(id) => Handled(s, RedirectTo(DetailPage(id)))
    case Proceed => Handled(DeletePost(s, postId), RedirectTo(ProfilePage(requester.username)))
  }

  // Comment endpoints.

  /** Creating a comment. An invalid form is shown again; a post that does
      not exist is not found, with no visibility check; otherwise the
      comment is appended with the requester as author and the URL's post
      as post, and the response redirects to that post's detail page. */
  function CommentCreate(s: Store, requester: User, postId: nat, text: string, now: int): (r: Handled)
    ensures r.response == FormInvalid <==> !CommentFormValid(text)
    ensures r.response == Error(NotFound) <==> CommentFormValid(text) && postId !in PostIds(s)
    ensures CommentFormValid(text) && postId in PostIds(s) ==> r.response == RedirectTo(DetailPage(postId))
    ensures r.response.RedirectTo? ==> r.response.page == DetailPage(postId)
    ensures !r.response.RedirectTo? ==> r.store == s
    ensures r.response.RedirectTo? ==>
      && r.store.(comments := s.comments) == s
      && |r.store.comments| == |s.comments| + 1
      && r.store.comments[..|s.comments|] == s.comments
      && var c := r.store.comments[|s.comments|];
      && (forall d :: d in s.comments ==> d.id != c.id)
      && c.author == requester.id && c.post == postId && c.text == text && c.createdAt == now
  {
    if !CommentFormValid(text) then Handled(s, FormInvalid)
    else
      match FindPost(s, postId)
      case None => Handled(s, Error(NotFound))
      case Some(p) =>
        var c := Comment(NextKey(s.comments, CommentKey), text, p.id, now, requester.id);
        assert (s.comments + [c])[..|s.comments|] == s.comments;
        Handled(s.(comments := s.comments + [c]), RedirectTo(DetailPage(p.id)))
  }

  /** The comments with the form saved into the one with id `commentId`. */
  function SaveCommentForm(comments: seq<Comment>, commentId: nat, text: string): (r: seq<Comment>)
    ensures |r| == |comments|
    ensures forall i :: 0 <= i < |r| ==>
      r[i] == if comments[i].id == commentId then ApplyCommentForm(comments[i], text) else comments[i]
  {
    seq(|comments|, i requires 0 <= i < |comments| =>
      if comments[i].id == commentId then ApplyCommentForm(comments[i], text) else comments[i])
  }

  /** Editing a comment. Unless the guard proceeds nothing changes: a
      missing comment is not found, someone else's comment redirects to the
      detail page of the URL's post. For the author an invalid form is shown
      again, a valid one changes the comment's text and the response
      redirects to the detail page of the comment's own post. */
  function CommentUpdate(s: Store, requester: User, urlPostId: nat, commentId: nat, text: string)
    : (r: Handled)
    ensures !CommentGuard(s, requester, commentId, urlPostId).Proceed? ==> r.store == s
    ensures CommentGuard(s, requester, commentId, urlPostId).Redirect? ==>
      r.response == RedirectTo(DetailPage(urlPostId))
    ensures CommentGuard(s, requester, commentId, urlPostId).Abort? ==> r.response == Error(NotFound)
    ensures CommentGuard(s, requester, commentId, urlPostId).Proceed? ==>
      if CommentFormValid(text) then
        r.response == RedirectTo(DetailPage(FindComment(s, commentId).value.post))
      else r == Handled(s, FormInvalid)
    ensures r.store.(comments := s.comments) == s && |r.store.comments| == |s.comments|
    ensures forall i :: 0 <= i < |s.comments| ==>
      && r.store.comments[i].(text := s.comments[i].text) == s.comments[i]
      && (s.comments[i].id != commentId ==> r.store.comments[i] == s.comments[i])
    ensures CommentGuard(s, requester, commentId, urlPostId).Proceed? && CommentFormValid(text) ==>
      forall i :: 0 <= i < |s.comments| && s.comments[i].id == commentId ==>
        r.store.comments[i].text == text
  {
    match CommentGuard(s, requester, commentId, urlPostId)
    case Abort(e) => Handled(s, Error(e))
    case Redirect(id) => Handled(s, RedirectTo(DetailPage(id)))
    case Proceed =>
      var c := FindComment(s, commentId).value;
      if !CommentFormValid(text) then Handled(s, FormInvalid)
      else Handled(s.(comments := SaveCommentForm(s.comments, commentId, text)), RedirectTo(DetailPage(c.post)))
  }

  function CommentNot(id: nat): Comment -> bool { (c: Comment) => c.id != id }

  /** Deleting a comment. Unless the guard proceeds nothing changes; for the
      author the comment is deleted and the response redirects to the detail
      page of the comment's own post. */
  function CommentDelete(s: Store, requester: User, urlPostId: nat, commentId: nat): (r: Handled)
    ensures !CommentGuard(s, requester, commentId, urlPostId).Proceed? ==> r.store == s
    ensures CommentGuard(s, requester, commentId, urlPostId).Redirect? ==>
      r.response == RedirectTo(DetailPage(urlPostId))
    ensures CommentGuard(s, requester, commentId, urlPostId).Abort? ==> r.response == Error(NotFound)
    ensures CommentGuard(s, requester, commentId, urlPostId).Proceed? ==>
      && r.response == RedirectTo(DetailPage(FindComment(s, commentId).value.post))
      && r.store.(comments := s.comments) == s
      && (forall c :: c in r.store.comments <==> c in s.comments && c.id != commentId)
  {
    match CommentGuard(s, requester, commentId, urlPostId)
    case Abort(e) => Handled(s, Error(e))
    case Redirect(id) => Handled(s, RedirectTo(DetailPage(id)))
    case Proceed =>
      var c := FindComment(s, commentId).value;
      Handled(s.(comments := Filter(s.comments, CommentNot(commentId))), RedirectTo(DetailPage(c.post)))
  }

  // Profile endpoint.

  /** Editing a profile always edits the requester's own row: the form's
      fields are saved into the requester, every other user stays, and the
      response redirects to the requester's profile. */
  function ProfileUpdate(s: Store, requester: User, f: ProfileFields): (r: Handled)
    ensures r.response == RedirectTo(ProfilePage(requester.username))
    ensures r.store.(users := s.users) == s && |r.store.users| == |s.users|
    ensures forall i :: 0 <= i < |s.users| ==>
      && r.store.users[i].id == s.users[i].id
      && (s.users[i].id != requester.id ==> r.store.users[i] == s.users[i])
      && (s.users[i].id == requester.id ==>
            r.store.users[i].username == requester.username && ProfileFormOf(r.store.users[i]) == f)
  {
    var users := seq(|s.users|, i requires 0 <= i < |s.users| =>
      if s.users[i].id == requester.id then ApplyProfileForm(requester, f) else s.users[i]);
    Handled(s.(users := users), RedirectTo(ProfilePage(requester.username)))
  }

  // Properties across endpoints.

  /** A requester who did not write a post or comment changes nothing by
      editing or deleting it, whatever the form holds. */
  lemma NonAuthorsChangeNothing(s: Store, requester: User, postId: nat, commentId: nat,
                                f: PostFields, text: string, now: int)
    requires forall p :: p in s.posts && p.id == postId ==> p.author != requester.id
    requires forall c :: c in s.comments && c.id == commentId ==> c.author != requester.id
    ensures PostUpdate(s, requester, postId, f, now).store == s
    ensures PostDelete(s, requester, postId, now).store == s
    ensures CommentUpdate(s, requester, postId, commentId, text).store == s
    ensures CommentDelete(s, requester, postId, commentId).store == s
  {
  }

  lemma PostCreatePreservesWellFormed(s: Store, requester: User, f: PostFields, now: int)
    requires WellFormed(s)
    ensures WellFormed(PostCreate(s, requester, f, now).store)
  {
    var r := PostCreate(s, requester, f, now);
    if r.store != s {
      var p := r.store.posts[|s.posts|];
      assert r.store.posts == s.posts + [p];
      AppendPostPreservesWellFormed(s, p);
    }
  }

  /** Saving a valid post form keeps the store well-formed. */
  lemma SavePostFormPreservesWellFormed(s: Store, postId: nat, f: PostFields)
    requires WellFormed(s) && PostFormValid(s, f)
    ensures WellFormed(s.(posts := SavePostForm(s.posts, postId, f)))
  {
    var r := s.(posts := SavePostForm(s.posts, postId, f));
    SameIdsKeepKeys(s.posts, r.posts);
    forall p | p in r.posts ensures |p.title| <= MaxTitleLength && PostRefsValid(r, p) {
      var i :| 0 <= i < |r.posts| && r.posts[i] == p;
      assert s.posts[i] in s.posts;
    }
  }

  lemma PostUpdatePreservesWellFormed(s: Store, requester: User, postId: nat, f: PostFields, now: int)
    requires WellFormed(s)
    ensures WellFormed(PostUpdate(s, requester, postId, f, now).store)
  {
    if PostGuard(s, requester, postId, now).Proceed? && PostFormValid(s, f) {
      SavePostFormPreservesWellFormed(s, postId, f);
    }
  }

  lemma PostDeletePreservesWellFormed(s: Store, requester: User, postId: nat, now: int)
    requires WellFormed(s)
    ensures WellFormed(PostDelete(s, requester, postId, now).store)
  {
    DeletePostPreservesWellFormed(s, postId);
  }

  /** The author a new comment is stamped with is the session's user, which
      is a row of the store. */
  lemma CommentCreatePreservesWellFormed(s: Store, requester: User, postId: nat, text: string, now: int)
    requires WellFormed(s) && requester in s.users
    ensures WellFormed(CommentCreate(s, requester, postId, text, now).store)
  {
    var r := CommentCreate(s, requester, postId, text, now);
    if r.store != s {
      var c := r.store.comments[|s.comments|];
      assert r.store.comments == s.comments + [c];
      AppendCommentPreservesWellFormed(s, c);
    }
  }

  lemma CommentUpdatePreservesWellFormed(s: Store, requester: User, urlPostId: nat, commentId: nat, text: string)
    requires WellFormed(s)
    ensures WellFormed(CommentUpdate(s, requester, urlPostId, commentId, text).store)
  {
    var r := CommentUpdate(s, requester, urlPostId, commentId, text);
    forall c | c in r.store.comments ensures CommentRefsValid(r.store, c) {
      var i :| 0 <= i < |r.store.comments| && r.store.comments[i] == c;
      assert s.comments[i] in s.comments;
    }
  }

  lemma CommentDeletePreservesWellFormed(s: Store, requester: User, urlPostId: nat, commentId: nat)
    requires WellFormed(s)
    ensures WellFormed(CommentDelete(s, requester, urlPostId, commentId).store)
  {
    FilterDistinct(s.comments, CommentNot(commentId), CommentKey);
  }

  lemma ProfileUpdatePreservesWellFormed(s: Store, requester: User, f: ProfileFields)
    requires WellFormed(s) && requester in s.users
    ensures WellFormed(ProfileUpdate(s, requester, f).store)
  {
    var r := ProfileUpdate(s, requester, f);
    assert forall i :: 0 <= i < |s.users| ==> r.store.users[i].username == s.users[i].username by {
      forall i | 0 <= i < |s.users| ensures r.store.users[i].username == s.users[i].username {
        if s.users[i].id == requester.id {
          DistinctKeyIdentifies(s.users, UserKey, s.users[i], requester);
        }
      }
    }
    assert UserIds(r.store) == UserIds(s) by {
      forall x | x in UserIds(s) ensures x in UserIds(r.store) {
        var i :| 0 <= i < |s.users| && s.users[i].id == x;
        assert r.store.users[i] in r.store.users;
      }
    }
  }
}
